=== FILE: README.md ===
# Indentation level movement, modelled in Dafny

The indentation-level-movement editor extension moves the cursor to another line at
the same indentation level, instead of one line at a time. A line's *level* is the index
of its first non-whitespace character. An empty line has level -1. From the start line
of the primary selection:

- **moveDown** and **moveUp** look at the adjacent line first. If its level differs from
  the current one (a *gap*), the cursor goes to the first line back at the current level.
  Otherwise it goes to the last line of the run of lines at that level.
- **selectDown** and **selectUp** do the same move, but keep the old selection start as
  the anchor.
- **moveRight** puts the cursor on the indentation column of the selection's start line
  when the cursor is to the left of it. With several cursors, or when the cursor is
  already at or past that column, it hands over to the editor's word motions.

The model has four modules:

- `Editor` (editor.dfy) holds the host values the extension uses: positions, selections,
  the host's first-non-whitespace index, and a `TextEditor` class. The class holds the
  document and the selections that the commands assign to.
- `Indentation` (indentation.dfy) holds the level of a line.
- `Siblings` (siblings.dfy) holds the two searches. Each one appears three times:
  - as the loop the extension runs (`FindNextLine`, `FindPreviousLine`);
  - as a recursive function that follows the loop (`NextLine`, `PreviousLine`);
  - as a declarative predicate on the result (`IsNextSibling`, `IsPreviousSibling`).

  Lemmas prove that the three agree, and that each predicate has exactly one answer.
- `IndentationLevelMover` (mover.dfy) holds the commands as methods that take a `TextEditor`.
  The choice `moveRight` makes is the pure function `RightMoveDecision`.

`Scenarios` (scenarios.dfy) holds two client sessions proved from the contracts.

Notes on what src/extension.ts does:

- Levels count raw characters. A tab is one character and is not expanded to a tab stop.
- Only a line with no characters gets -1. A whitespace-only line's level is its length,
  and there is no `//` comment-line rule.
- An empty line is a valid destination. From an empty line (level -1), the search looks
  for other lines of level -1.
- There is no move-out (parent) command.
- Down-then-up is a round trip in two cases. The first is when moveDown crosses a gap to
  a line at the start line's level (`DownThenUpAcrossGap`). The second is when moveDown
  follows a run from the run's first line, unless that line is line 1
  (`DownThenUpAlongRun`). It is not a round trip when the gap search finds no line at
  the level and falls back to the last line (`DownThenUpAfterFallback`). Nor is it one
  when the start line is in the middle of a run (`DownThenUpFromMidRun`). The upward
  loop stops before line 0 and then falls back to line 0. So a run that starts at line
  1, below a line 0 of another level, leads back to line 0 (`DownThenUpFromLineOne`).
- `moveRight` takes the level from the selection's start line but snaps on the active
  line. With a selection spanning lines, the cursor can land mid-text or past the end of
  its line (`SnapAcrossLines`).
- When the cursor does not move, `move` keeps the active line, not the start line. This
  is the host's `Position.with` with an undefined line. So `moveUp` on a selection that
  starts on line 0 collapses it onto its active line, at the start's character.

## Model

| member | source | states |
|---|---|---|
| `Editor.FirstNonWhitespaceCharacterIndex` | src/extension.ts:163 | The result is the length of the line's longest whitespace prefix: at most the line's length, every character before it is whitespace, and the character at it is not. |
| `Editor.TextEditor.SetSelection` | src/extension.ts:151 | Assigning the editor's selection leaves that one selection as the only cursor and keeps every cursor line inside the document. |
| `Indentation.IndentationLevelForLine` | src/extension.ts:155-165 | The level is -1 if and only if the line is empty. Otherwise it lies between 0 and the line's length, everything before it is whitespace, and the character at it is not. |
| `Indentation.WhitespaceOnlyLineLevel` | src/extension.ts:159-164 | A non-empty whitespace-only line has its length as its level, never -1. |
| `Indentation.LevelCountsLeadingCharacters` | src/extension.ts:163 | A line of whitespace (tabs included) followed by text has the number of whitespace characters as its level, with no tab expansion. |
| `Siblings.ScanDownAcrossGap` | src/extension.ts:180-194 | When crossing a gap, the downward loop stops at the first line at the level, or at the last line when none is at the level. |
| `Siblings.ScanDownAlongRun` | src/extension.ts:180-194 | When following a run, the downward loop stops at the run's last line: every line up to it is at the level, and the next line is not or the document ends. |
| `Siblings.NextSiblingIsUnique` | src/extension.ts:167-195 | At most one result satisfies the downward search's promise. |
| `Siblings.NextLineCharacterised` | src/extension.ts:167-195 | `NextLine` returns r exactly when r is the next sibling. The result is "no movement" if and only if the line is the last one. Otherwise it is a later line, chosen by the gap or run rule. |
| `Siblings.FindNextLine` | src/extension.ts:167-195 | The loop with early returns gives the recursive search's result, and that result is the next sibling. |
| `Siblings.ScanUpAcrossGap` | src/extension.ts:210-220 | When crossing a gap, the upward loop stops at the nearest line from 1 upwards at the level, or falls back to 0. |
| `Siblings.ScanUpAlongRun` | src/extension.ts:210-220 | When following a run, the upward loop stops at the run's top line when a line from 1 on ends the run, or falls back to 0 when the run reaches line 1. |
| `Siblings.PreviousSiblingIsUnique` | src/extension.ts:197-221 | At most one result satisfies the upward search's promise. |
| `Siblings.PreviousLineCharacterised` | src/extension.ts:197-221 | `PreviousLine` returns r exactly when r is the previous sibling. The result is "no movement" if and only if the line is 0. Otherwise it is an earlier line, chosen by the gap or run rule over lines 1 and up, with 0 as the fallback. |
| `Siblings.FindPreviousLine` | src/extension.ts:197-221 | The loop that runs while `lineNumber > 0` gives the recursive search's result, and that result is the previous sibling. |
| `Siblings.PreviousLineIgnoresLineZero` | src/extension.ts:200-220 | Two documents that differ only in line 0 give the same upward result from every line, so line 0's level never decides it. |
| `Siblings.DownThenUpAcrossGap` | src/extension.ts:167-221 | Going down across a gap to a line at the start line's level, then up again, returns to the start line. |
| `Siblings.DownThenUpAlongRun` | src/extension.ts:167-221 | Going down a run that begins at the start line (except at line 1), then up again, returns to the start line. |
| `Siblings.DownThenUpAfterFallback` | src/extension.ts:187-194 | In `["a", "a", "  b"]`, down from line 1 falls back to line 2 (no line at level 0 after the gap), and up from line 2 gives line 0, not line 1. |
| `Siblings.DownThenUpFromMidRun` | src/extension.ts:189-190 | In `["x", "y", "  a", "  b", "  c"]` at level 2, down from line 3 gives line 4, and up from line 4 gives the run's first line 2, not line 3. |
| `Siblings.DownThenUpFromLineOne` | src/extension.ts:210-220 | Going down a run that begins at line 1, below a line 0 of another level, then up again, lands on line 0. |
| `IndentationLevelMover.Move` | src/extension.ts:143-153 | Afterwards there is a single collapsed cursor. It is on the target line, or on the old active line when there is no movement, at the old start's character. |
| `IndentationLevelMover.MoveDown` | src/extension.ts:79-90 | The target is the next sibling of the start line at that line's level, and the editor holds one collapsed cursor there. |
| `IndentationLevelMover.MoveUp` | src/extension.ts:66-77 | The target is the previous sibling of the start line at that line's level, and the editor holds one collapsed cursor there. |
| `IndentationLevelMover.SelectDown` | src/extension.ts:131-141 | The new single selection is anchored at the old start, and its active end is where `moveDown` puts the cursor. |
| `IndentationLevelMover.SelectUp` | src/extension.ts:120-129 | The new single selection is anchored at the old start, and its active end is where `moveUp` puts the cursor. |
| `IndentationLevelMover.RightMoveDecision` | src/extension.ts:98-117 | It hands over to word-end-right exactly when the cursor is at or past the start line's level, and so always on an empty line. It snaps only with one cursor, on the active line, moving right to the level. The composite motion happens only with several cursors. |
| `IndentationLevelMover.SnapColumnIsStartLineIndentation` | src/extension.ts:98-113 | The snap column is the start line's first non-whitespace index: at most that line's length, only whitespace lies left of it on that line, and the character there is not whitespace unless the line ends there. |
| `IndentationLevelMover.SnapAcrossLines` | src/extension.ts:98-113 | With one selection from (0, 0) to (1, 0) in `["  a", "b"]`, the snap takes column 2 from line 0 and puts the cursor on line 1, past that line's end. |
| `IndentationLevelMover.SnapIsIdempotent` | src/extension.ts:98-117 | With one cursor on a single line, a second `moveRight` after a snap does not snap again. It hands over to word-end-right. |
| `IndentationLevelMover.MoveRight` | src/extension.ts:92-118 | It takes the decision's branch. A snap leaves a single collapsed cursor at the indentation column, and a hand-over leaves the selections to the host's motion. |

## Left out

- Command registration in `activate`, the empty `deactivate`, and `dispose` are host glue with no behaviour of their own.
- The lookup of the active editor, and the early return when there is none, are left out. The editor is an explicit `TextEditor` parameter.
- `revealRange` after a move only scrolls the view, so it is not modelled.
- The host commands `cursorWordEndRight` and `cursorWordStartLeft`, and their `.then` chaining, are asynchronous foreign code. `MoveRight` reports which of them it hands over to and leaves the selections unchanged.
- The host's clamping of a cursor character past the end of its line is not modelled. Positions keep the character the extension computes.
- That a document has at least one line, and that every selection lies on document lines, are host guarantees. They appear as `TextEditor.Valid()` and as preconditions.
- Tab-stop expansion, comment-line skipping and a move-out (parent) command are not modelled, because src/extension.ts implements none of them.

=== FILE: editor.dfy ===
/**
 The slice of the host editor that the indentation mover reads and writes:
 positions, selections, a line's first non-whitespace character, and a text
 editor holding a document and its current selections.
 */
module Editor {

  /** A character matched by the JavaScript regular-expression class `\s`,
      which the host uses to find a line's leading whitespace. A tab is one
      such character, like a space; nothing is expanded to tab stops. */
  predicate IsWhitespace(c: char)
  {
    || c == ' ' || c == '\t' || c == '\n' || c == '\U{B}' || c == '\U{C}' || c == '\r'
    || c == '\U{A0}' || c == '\U{1680}' || ('\U{2000}' <= c <= '\U{200A}')
    || c == '\U{2028}' || c == '\U{2029}' || c == '\U{202F}' || c == '\U{205F}'
    || c == '\U{3000}' || c == '\U{FEFF}'
  }

  /** The host's `firstNonWhitespaceCharacterIndex` of a line: the length of
      its longest whitespace prefix, hence the line's length when the line
      is made of whitespace only. */
  function FirstNonWhitespaceCharacterIndex(text: string): (r: nat)
    ensures r <= |text|
    ensures forall i :: 0 <= i < r ==> IsWhitespace(text[i])
    ensures r == |text| || !IsWhitespace(text[r])
  {
    if |text| == 0 then 0
    else if IsWhitespace(text[0]) then 1 + FirstNonWhitespaceCharacterIndex(text[1..])
    else 0
  }

  /** A zero-based (line, character) location in a document. */
  datatype Position = Position(line: nat, character: nat)
  {
    predicate IsBefore(other: Position)
    {
      line < other.line || (line == other.line && character < other.character)
    }
  }

  /** A selection runs from where it was started (`anchor`) to where the
      cursor is (`active`); `Start` and `End` are the same two positions in
      document order. */
  datatype Selection = Selection(anchor: Position, active: Position)
  {
    function Start(): (p: Position)
      ensures p == anchor || p == active
      ensures !active.IsBefore(p) && !anchor.IsBefore(p)
    {
      if anchor.IsBefore(active) then anchor else active
    }

    function End(): (p: Position)
      ensures p == anchor || p == active
      ensures !p.IsBefore(active) && !p.IsBefore(anchor)
    {
      if anchor.IsBefore(active) then active else anchor
    }

    predicate IsEmpty()
    {
      anchor == active
    }
  }

  /** A cursor with nothing selected: `new Selection(p, p)`. */
  function Collapsed(p: Position): (s: Selection)
    ensures s.IsEmpty() && s.Start() == p && s.End() == p
  {
    Selection(p, p)
  }

  /** A text editor: a document of at least one line, which the mover never
      edits, and one or more selections (several when there are several
      cursors), the first of them being the primary `selection`. */
  class TextEditor {
    const document: seq<string>
    var selections: seq<Selection>

    ghost predicate Valid()
      reads this
    {
      && |document| >= 1
      && |selections| >= 1
      && forall s :: s in selections ==> s.anchor.line < |document| && s.active.line < |document|
    }

    /** `editor.selection`, the primary selection. */
    function Primary(): (s: Selection)
      reads this
      requires Valid()
      ensures s in selections
      ensures s.Start().line < |document| && s.End().line < |document|
    {
      selections[0]
    }

    constructor (document: seq<string>, selections: seq<Selection>)
      requires |document| >= 1 && |selections| >= 1
      requires forall s :: s in selections ==> s.anchor.line < |document| && s.active.line < |document|
      ensures Valid()
      ensures this.document == document && this.selections == selections
    {
      this.document := document;
      this.selections := selections;
    }

    /** Assigning `editor.selection` replaces every cursor by that one. */
    method SetSelection(s: Selection)
      requires Valid()
      requires s.anchor.line < |document| && s.active.line < |document|
      modifies this
      ensures Valid()
      ensures selections == [s] && Primary() == s
    {
      selections := [s];
    }
  }
}

=== FILE: indentation.dfy ===
/**
 The indentation level of a line: the raw index of its first non-whitespace
 character, or -1 for a line with no text at all.
 */
module Indentation {
  import opened Editor

  /** `indentationLevelForLine`: -1 exactly for an empty line; otherwise the
      number of whitespace characters the line starts with, counting a tab as
      one. A line of whitespace only is not empty, so its level is its length. */
  function IndentationLevelForLine(document: seq<string>, line: nat): (level: int)
    requires line < |document|
    ensures level == -1 <==> |document[line]| == 0
    ensures level != -1 ==> 0 <= level <= |document[line]|
    ensures forall i :: 0 <= i < level ==> IsWhitespace(document[line][i])
    ensures 0 <= level < |document[line]| ==> !IsWhitespace(document[line][level])
  {
    var text := document[line];
    if |text| == 0 then -1 else FirstNonWhitespaceCharacterIndex(text)
  }

  /** A non-empty line made of whitespace only has its own length as level,
      so it is never given the empty line's -1. */
  lemma WhitespaceOnlyLineLevel(document: seq<string>, line: nat)
    requires line < |document| && |document[line]| > 0
    requires forall i :: 0 <= i < |document[line]| ==> IsWhitespace(document[line][i])
    ensures IndentationLevelForLine(document, line) == |document[line]|
  {
  }

  /** The level counts characters: a line indented by `indent` (whitespace of
      any kind, tabs included) before visible text has level `|indent|`. */
  lemma LevelCountsLeadingCharacters(document: seq<string>, line: nat, indent: string, rest: string)
    requires line < |document| && document[line] == indent + rest
    requires forall i :: 0 <= i < |indent| ==> IsWhitespace(indent[i])
    requires |rest| > 0 && !IsWhitespace(rest[0])
    ensures IndentationLevelForLine(document, line) == |indent|
  {
    var text := document[line];
    assert text[|indent|] == rest[0];
  }
}

=== FILE: mover.dfy ===
/**
 The commands of the indentation mover, applied to a text editor: move up
 or down to a sibling line, extend the selection up or down, and move right
 with a stop at the indentation column.
 */
module IndentationLevelMover {
  import opened Editor
  import opened Indentation
  import opened Siblings

  /** Where `move(toLine)` puts the cursor: on `toLine`, or on the active
      line when there is no movement, at the character of the selection's
      start. */
  function MovedTo(selection: Selection, toLine: Option<nat>): Position
  {
    Position(toLine.GetOr(selection.active.line), selection.Start().character)
  }

  /** The line `moveDown` lands on from the primary selection. */
  function DownTarget(document: seq<string>, selection: Selection): Option<nat>
    requires selection.Start().line < |document|
  {
    var line := selection.Start().line;
    NextLine(document, line, IndentationLevelForLine(document, line))
  }

  /** The line `moveUp` lands on from the primary selection. */
  function UpTarget(document: seq<string>, selection: Selection): Option<nat>
    requires selection.Start().line < |document|
  {
    var line := selection.Start().line;
    PreviousLine(document, line, IndentationLevelForLine(document, line))
  }

  /** `move(toLine)`: a single cursor, nothing selected, at `MovedTo`. */
  method Move(editor: TextEditor, toLine: Option<nat>)
    requires editor.Valid()
    requires toLine.Some? ==> toLine.value < |editor.document|
    modifies editor
    ensures editor.Valid()
    ensures editor.selections == [Collapsed(MovedTo(old(editor.Primary()), toLine))]
  {
    var currentCharacter := editor.Primary().Start().character;
    var position := editor.Primary().active;
    var newPosition := Position(toLine.GetOr(position.line), currentCharacter);
    editor.SetSelection(Selection(newPosition, newPosition));
  }

  /** `moveDown`: from the start line of the primary selection to the next
      sibling line at that line's level; the cursor stays put (and the
      selection collapses onto the active line) on the last line. */
  method MoveDown(editor: TextEditor)
    requires editor.Valid()
    modifies editor
    ensures editor.Valid()
    ensures var selection := old(editor.Primary());
      && var line := selection.Start().line;
      && IsNextSibling(editor.document, line, IndentationLevelForLine(editor.document, line), DownTarget(editor.document, selection))
      && editor.selections == [Collapsed(MovedTo(selection, DownTarget(editor.document, selection)))]
  {
    var currentLineNumber := editor.Primary().Start().line;
    var currentLevel := IndentationLevelForLine(editor.document, currentLineNumber);
    var nextLine := FindNextLine(editor.document, currentLineNumber, currentLevel);
    Move(editor, nextLine);
  }

  /** `moveUp`: from the start line of the primary selection to the previous
      sibling line at that line's level; the cursor stays put (and the
      selection collapses onto the active line) on line 0. */
  method MoveUp(editor: TextEditor)
    requires editor.Valid()
    modifies editor
    ensures editor.Valid()
    ensures var selection := old(editor.Primary());
      && var line := selection.Start().line;
      && IsPreviousSibling(editor.document, line, IndentationLevelForLine(editor.document, line), UpTarget(editor.document, selection))
      && editor.selections == [Collapsed(MovedTo(selection, UpTarget(editor.document, selection)))]
  {
    var currentLineNumber := editor.Primary().Start().line;
    var currentLevel := IndentationLevelForLine(editor.document, currentLineNumber);
    var nextLine := FindPreviousLine(editor.document, currentLineNumber, currentLevel);
    Move(editor, nextLine);
  }

  /** `selectDown`: a selection from the old start to where `moveDown` puts
      the cursor. */
  method SelectDown(editor: TextEditor)
    requires editor.Valid()
    modifies editor
    ensures editor.Valid()
    ensures var selection := old(editor.Primary());
      editor.selections == [Selection(selection.Start(), MovedTo(selection, DownTarget(editor.document, selection)))]
  {
    var startPoint := editor.Primary().Start();
    MoveDown(editor);
    var endPoint := editor.Primary().End();
    editor.SetSelection(Selection(startPoint, endPoint));
  }

  /** `selectUp`: a selection from the old start to where `moveUp` puts the
      cursor. */
  method SelectUp(editor: TextEditor)
    requires editor.Valid()
    modifies editor
    ensures editor.Valid()
    ensures var selection := old(editor.Primary());
      editor.selections == [Selection(selection.Start(), MovedTo(selection, UpTarget(editor.document, selection)))]
  {
    var startPoint := editor.Primary().Start();
    MoveUp(editor);
    var endPoint := editor.Primary().End();
    editor.SetSelection(Selection(startPoint, endPoint));
  }

  /** The three outcomes of `moveRight`: set the cursor at the indentation
      column, or hand over to the host's word motions — word-end-right then
      word-start-left for several cursors, word-end-right alone otherwise. */
  datatype RightMotion =
    | SnapToIndentation(position: Position)
    | WordEndRightThenWordStartLeft
    | WordEndRight

  /** The choice `moveRight` makes. It snaps only when the cursor is left of
      the first non-whitespace character of the selection's start line, and
      then only with a single cursor; it never snaps on an empty line. */
  function RightMoveDecision(document: seq<string>, selections: seq<Selection>): (motion: RightMotion)
    requires |selections| >= 1 && selections[0].Start().line < |document|
    ensures var selection := selections[0];
      var level := IndentationLevelForLine(document, selection.Start().line);
      && (motion.WordEndRight? <==> level <= selection.active.character)
      && (motion.SnapToIndentation? ==>
            && |selections| == 1
            && motion.position.line == selection.active.line
            && selection.active.character < motion.position.character == level)
      && (motion.WordEndRightThenWordStartLeft? ==> |selections| > 1)
      && (|document[selection.Start().line]| == 0 ==> motion.WordEndRight?)
  {
    var selection := selections[0];
    var indentationPosition := IndentationLevelForLine(document, selection.Start().line);
    if selection.active.character < indentationPosition then
      if |selections| > 1 then WordEndRightThenWordStartLeft
      else SnapToIndentation(Position(selection.active.line, indentationPosition))
    else WordEndRight
  }

  /** The snap column is the start line's first non-whitespace index (its
      length when the line is whitespace only): only whitespace lies left of
      that column on the start line. The cursor is put on the active line, so
      it lands on that character only when both ends share a line. */
  lemma SnapColumnIsStartLineIndentation(document: seq<string>, selection: Selection)
    requires selection.Start().line < |document|
    requires RightMoveDecision(document, [selection]).SnapToIndentation?
    ensures var text := document[selection.Start().line];
      var column := RightMoveDecision(document, [selection]).position.character;
      && column <= |text|
      && (forall i :: 0 <= i < column ==> IsWhitespace(text[i]))
      && (column == |text| || !IsWhitespace(text[column]))
  {
  }

  /** A single selection from (0, 0) to (1, 0) in `["  a", "b"]`: the column
      comes from line 0 and the cursor goes to line 1, past that line's end. */
  lemma SnapAcrossLines()
    ensures var document := ["  a", "b"];
      var selection := Selection(Position(0, 0), Position(1, 0));
      && RightMoveDecision(document, [selection]) == SnapToIndentation(Position(1, 2))
      && |document[1]| < 2
  {
    var document := ["  a", "b"];
    assert IndentationLevelForLine(document, 0) == 2;
  }

  /** With one cursor on its own line, snapping once is enough: at the
      indentation column, `moveRight` hands over to word-end-right. */
  lemma SnapIsIdempotent(document: seq<string>, selection: Selection)
    requires selection.Start().line < |document|
    requires selection.anchor.line == selection.active.line
    requires RightMoveDecision(document, [selection]).SnapToIndentation?
    ensures var snapped := RightMoveDecision(document, [selection]).position;
      RightMoveDecision(document, [Collapsed(snapped)]) == WordEndRight
  {
  }

  /** `moveRight`: performs the snap itself and reports which host motion it
      hands over to otherwise, leaving the selections to that motion. */
  method MoveRight(editor: TextEditor) returns (motion: RightMotion)
    requires editor.Valid()
    modifies editor
    ensures editor.Valid()
    ensures motion == RightMoveDecision(editor.document, old(editor.selections))
    ensures motion.SnapToIndentation? ==> editor.selections == [Collapsed(motion.position)]
    ensures !motion.SnapToIndentation? ==> editor.selections == old(editor.selections)
  {
    var currentPosition := editor.Primary().active.character;
    var indentationPosition := IndentationLevelForLine(editor.document, editor.Primary().Start().line);
    if currentPosition < indentationPosition {
      if |editor.selections| > 1 {
        motion := WordEndRightThenWordStartLeft;
      } else {
        var position := Position(editor.Primary().active.line, indentationPosition);
        editor.SetSelection(Selection(position, position));
        motion := SnapToIndentation(position);
      }
    } else {
      motion := WordEndRight;
    }
  }
}

=== FILE: scenarios.dfy ===
/**
 Two editing sessions written against the commands' contracts alone, as a
 caller would see them.
 */
module Scenarios {
  import opened Editor
  import opened Indentation
  import opened Siblings
  import opened IndentationLevelMover

  /** Extending the selection down from (5, 3) past an indented block lands
      on the next line of level 0, line 8: the selection spans (5, 3)-(8, 3). */
  method SelectDownOverBlock()
  {
    var document := ["aaa", "bbb", "ccc", "ddd", "eee", "fff", "  ggg", "  hhh", "iii", "jjj"];
    var cursor := Position(5, 3);
    var editor := new TextEditor(document, [Collapsed(cursor)]);
    assert IndentationLevelForLine(document, 5) == 0;
    assert IndentationLevelForLine(document, 6) == 2;
    assert IndentationLevelForLine(document, 7) == 2;
    assert IndentationLevelForLine(document, 8) == 0;
    NextLineCharacterised(document, 5, 0, Some(8));
    SelectDown(editor);
    assert editor.selections == [Selection(Position(5, 3), Position(8, 3))];
  }

  /** Down then up along a run that starts at line 1 ends on line 0. */
  method MoveDownThenUpFromLineOne()
  {
    var document := ["a", "  b", "  c"];
    var editor := new TextEditor(document, [Collapsed(Position(1, 2))]);
    assert IndentationLevelForLine(document, 0) == 0;
    assert IndentationLevelForLine(document, 1) == 2;
    assert IndentationLevelForLine(document, 2) == 2;
    NextLineCharacterised(document, 1, 2, Some(2));
    MoveDown(editor);
    assert editor.selections == [Collapsed(Position(2, 2))];
    PreviousLineCharacterised(document, 2, 2, Some(0));
    MoveUp(editor);
    assert editor.selections == [Collapsed(Position(0, 2))];
  }
}

=== FILE: siblings.dfy ===
/**
 The sibling search of the indentation mover: from the current line, find
 the next (or previous) line at the same indentation level.

 Both directions first look at the adjacent line. If its level differs from
 the current level there is a gap (a nested block, or a line of another
 level), and the scan stops at the first line back at the current level.
 Otherwise the scan walks along the run of lines at the current level and
 stops at its last line. Each search is given three times: as the loop the
 editor runs (`FindNextLine`, `FindPreviousLine`), as a recursive function
 that follows the loop (`NextLine`, `PreviousLine`), and as a declarative
 predicate on the result (`IsNextSibling`, `IsPreviousSibling`); the lemmas
 show that the three agree.
 */
module Siblings {
  import opened Editor
  import opened Indentation

  /** The result of a search: `None` is "no movement", distinct from line 0. */
  datatype Option<T> = None | Some(value: T)
  {
    function GetOr(default: T): T
    {
      match this
      case Some(v) => v
      case None => default
    }
  }

  // ---------------------------------------------------------------------
  // Downward search
  // ---------------------------------------------------------------------

  /** The downward loop from line `from` on, `gap` fixed: the first line at
      `level` when crossing a gap, the line before the first line off `level`
      when following a run, and the last line when the document runs out. */
  function ScanDown(document: seq<string>, from: nat, level: int, gap: bool): nat
    requires 1 <= from <= |document|
    decreases |document| - from
  {
    if from == |document| then |document| - 1
    else if gap && IndentationLevelForLine(document, from) == level then from
    else if !gap && IndentationLevelForLine(document, from) != level then from - 1
    else ScanDown(document, from + 1, level, gap)
  }

  /** `findNextLine(current, level)` as a function. */
  function NextLine(document: seq<string>, current: nat, level: int): Option<nat>
    requires current < |document|
  {
    if current == |document| - 1 then None
    else
      var gap := IndentationLevelForLine(document, current + 1) != level;
      Some(ScanDown(document, current + 1, level, gap))
  }

  /** Crossing a gap from `current`: `r` is the first later line at `level`,
      or, when there is none, the last line of the document. */
  ghost predicate FirstAtLevelAfter(document: seq<string>, current: nat, level: int, r: nat)
    requires current < r < |document|
  {
    || (&& IndentationLevelForLine(document, r) == level
        && forall k :: current < k < r ==> IndentationLevelForLine(document, k) != level)
    || (&& r == |document| - 1
        && forall k :: current < k < |document| ==> IndentationLevelForLine(document, k) != level)
  }

  /** Following a run from `current`: every line after `current` up to `r` is
      at `level`, and the run ends at `r`. */
  ghost predicate LastOfRunAfter(document: seq<string>, current: nat, level: int, r: nat)
    requires current < r < |document|
  {
    && (forall k :: current < k <= r ==> IndentationLevelForLine(document, k) == level)
    && (r == |document| - 1 || IndentationLevelForLine(document, r + 1) != level)
  }

  /** What the downward search promises: no movement exactly from the last
      line; otherwise a later line, chosen by the gap rule. */
  ghost predicate IsNextSibling(document: seq<string>, current: nat, level: int, r: Option<nat>)
    requires current < |document|
  {
    if current == |document| - 1 then r == None
    else
      && r.Some?
      && current < r.value < |document|
      && if IndentationLevelForLine(document, current + 1) != level
         then FirstAtLevelAfter(document, current, level, r.value)
         else LastOfRunAfter(document, current, level, r.value)
  }

  lemma {:induction false} ScanDownAcrossGap(document: seq<string>, from: nat, level: int)
    requires 1 <= from < |document|
    ensures var r := ScanDown(document, from, level, true);
      && from <= r < |document|
      && FirstAtLevelAfter(document, from - 1, level, r)
    decreases |document| - from
  {
    if IndentationLevelForLine(document, from) != level && from + 1 < |document| {
      ScanDownAcrossGap(document, from + 1, level);
    }
  }

  lemma {:induction false} ScanDownAlongRun(document: seq<string>, from: nat, level: int)
    requires 1 <= from < |document|
    requires IndentationLevelForLine(document, from) == level
    ensures var r := ScanDown(document, from, level, false);
      && from <= r < |document|
      && LastOfRunAfter(document, from - 1, level, r)
    decreases |document| - from
  {
    if from + 1 < |document| && IndentationLevelForLine(document, from + 1) == level {
      ScanDownAlongRun(document, from + 1, level);
    }
  }

  /** At most one result meets the downward promise. */
  lemma NextSiblingIsUnique(document: seq<string>, current: nat, level: int, r1: Option<nat>, r2: Option<nat>)
    requires current < |document|
    requires IsNextSibling(document, current, level, r1)
    requires IsNextSibling(document, current, level, r2)
    ensures r1 == r2
  {
  }

  /** The search function meets the downward promise, and nothing else does:
      `NextLine` returns `r` if and only if `r` is the next sibling. */
  lemma NextLineCharacterised(document: seq<string>, current: nat, level: int, r: Option<nat>)
    requires current < |document|
    ensures NextLine(document, current, level) == r <==> IsNextSibling(document, current, level, r)
  {
    var found := NextLine(document, current, level);
    if current < |document| - 1 {
      if IndentationLevelForLine(document, current + 1) != level {
        ScanDownAcrossGap(document, current + 1, level);
      } else {
        ScanDownAlongRun(document, current + 1, level);
      }
    }
    assert IsNextSibling(document, current, level, found);
    if IsNextSibling(document, current, level, r) {
      NextSiblingIsUnique(document, current, level, found, r);
    }
  }

  /** `findNextLine`: the loop, with its early returns. */
  method FindNextLine(document: seq<string>, currentLineNumber: nat, currentIndentationLevel: int)
    returns (r: Option<nat>)
    requires currentLineNumber < |document|
    ensures r == NextLine(document, currentLineNumber, currentIndentationLevel)
    ensures IsNextSibling(document, currentLineNumber, currentIndentationLevel, r)
  {
    NextLineCharacterised(document, currentLineNumber, currentIndentationLevel, NextLine(document, currentLineNumber, currentIndentationLevel));
    if currentLineNumber == |document| - 1 {
      return None;
    }
    var gap := IndentationLevelForLine(document, currentLineNumber + 1) != currentIndentationLevel;
    for lineNumber := currentLineNumber + 1 to |document|
      invariant ScanDown(document, lineNumber, currentIndentationLevel, gap)
             == ScanDown(document, currentLineNumber + 1, currentIndentationLevel, gap)
    {
      var indentationForLine := IndentationLevelForLine(document, lineNumber);
      if gap && indentationForLine == currentIndentationLevel {
        return Some(lineNumber);
      } else if !gap && indentationForLine != currentIndentationLevel {
        return Some(lineNumber - 1);
      }
    }
    return Some(|document| - 1);
  }

  // ---------------------------------------------------------------------
  // Upward search
  // ---------------------------------------------------------------------

  /** The upward loop from line `from` down to line 1, `gap` fixed. Line 0 is
      never looked at: reaching it gives 0 whatever its level. */
  function ScanUp(document: seq<string>, from: nat, level: int, gap: bool): nat
    requires from < |document|
    decreases from
  {
    if from == 0 then 0
    else if gap && IndentationLevelForLine(document, from) == level then from
    else if !gap && IndentationLevelForLine(document, from) != level then from + 1
    else ScanUp(document, from - 1, level, gap)
  }

  /** `findPreviousLine(current, level)` as a function. */
  function PreviousLine(document: seq<string>, current: nat, level: int): Option<nat>
    requires current < |document|
  {
    if current == 0 then None
    else
      var gap := IndentationLevelForLine(document, current - 1) != level;
      Some(ScanUp(document, current - 1, level, gap))
  }

  /** Crossing a gap upwards from `current`: `r` is the nearest earlier line
      from line 1 on that is at `level`, or 0 when lines 1 to `current - 1`
      hold none. */
  ghost predicate LastAtLevelBefore(document: seq<string>, current: nat, level: int, r: nat)
    requires r < current < |document|
  {
    || (&& 1 <= r
        && IndentationLevelForLine(document, r) == level
        && forall k :: r < k < current ==> IndentationLevelForLine(document, k) != level)
    || (&& r == 0
        && forall k :: 1 <= k < current ==> IndentationLevelForLine(document, k) != level)
  }

  /** Following a run upwards from `current`: `r` is the top line of the run
      when a line from 1 on ends it, or 0 when the run covers every line from
      1 to `current - 1` (whatever the level of line 0). */
  ghost predicate FirstOfRunBefore(document: seq<string>, current: nat, level: int, r: nat)
    requires r < current < |document|
  {
    || (&& 2 <= r
        && IndentationLevelForLine(document, r - 1) != level
        && forall k :: r <= k < current ==> IndentationLevelForLine(document, k) == level)
    || (&& r == 0
        && forall k :: 1 <= k < current ==> IndentationLevelForLine(document, k) == level)
  }

  /** What the upward search promises: no movement exactly from line 0;
      otherwise an earlier line, chosen by the gap rule over lines from 1 on. */
  ghost predicate IsPreviousSibling(document: seq<string>, current: nat, level: int, r: Option<nat>)
    requires current < |document|
  {
    if current == 0 then r == None
    else
      && r.Some?
      && r.value < current
      && if IndentationLevelForLine(document, current - 1) != level
         then LastAtLevelBefore(document, current, level, r.value)
         else FirstOfRunBefore(document, current, level, r.value)
  }

  lemma {:induction false} ScanUpAcrossGap(document: seq<string>, from: nat, level: int)
    requires from + 1 < |document|
    ensures var r := ScanUp(document, from, level, true);
      && r <= from
      && LastAtLevelBefore(document, from + 1, level, r)
    decreases from
  {
    if from > 0 && IndentationLevelForLine(document, from) != level {
      ScanUpAcrossGap(document, from - 1, level);
    }
  }

  lemma {:induction false} ScanUpAlongRun(document: seq<string>, from: nat, level: int)
    requires from + 1 < |document|
    requires from > 0 ==> IndentationLevelForLine(document, from) == level
    ensures var r := ScanUp(document, from, level, false);
      && r <= from
      && FirstOfRunBefore(document, from + 1, level, r)
    decreases from
  {
    if from > 1 && IndentationLevelForLine(document, from - 1) == level {
      ScanUpAlongRun(document, from - 1, level);
    }
  }

  /** At most one result meets the upward promise. */
  lemma PreviousSiblingIsUnique(document: seq<string>, current: nat, level: int, r1: Option<nat>, r2: Option<nat>)
    requires current < |document|
    requires IsPreviousSibling(document, current, level, r1)
    requires IsPreviousSibling(document, current, level, r2)
    ensures r1 == r2
  {
  }

  /** `PreviousLine` returns `r` if and only if `r` is the previous sibling. */
  lemma PreviousLineCharacterised(document: seq<string>, current: nat, level: int, r: Option<nat>)
    requires current < |document|
    ensures PreviousLine(document, current, level) == r <==> IsPreviousSibling(document, current, level, r)
  {
    var found := PreviousLine(document, current, level);
    if current > 0 {
      if IndentationLevelForLine(document, current - 1) != level {
        ScanUpAcrossGap(document, current - 1, level);
      } else {
        ScanUpAlongRun(document, current - 1, level);
      }
    }
    assert IsPreviousSibling(document, current, level, found);
    if IsPreviousSibling(document, current, level, r) {
      PreviousSiblingIsUnique(document, current, level, found, r);
    }
  }

  /** `findPreviousLine`: the loop runs while `lineNumber > 0`, then falls
      back to line 0. */
  method FindPreviousLine(document: seq<string>, currentLineNumber: nat, currentIndentationLevel: int)
    returns (r: Option<nat>)
    requires currentLineNumber < |document|
    ensures r == PreviousLine(document, currentLineNumber, currentIndentationLevel)
    ensures IsPreviousSibling(document, currentLineNumber, currentIndentationLevel, r)
  {
    PreviousLineCharacterised(document, currentLineNumber, currentIndentationLevel, PreviousLine(document, currentLineNumber, currentIndentationLevel));
    if currentLineNumber == 0 {
      return None;
    }
    var gap := IndentationLevelForLine(document, currentLineNumber - 1) != currentIndentationLevel;
    for lineNumber := currentLineNumber downto 1
      invariant ScanUp(document, lineNumber - 1, currentIndentationLevel, gap)
             == ScanUp(document, currentLineNumber - 1, currentIndentationLevel, gap)
    {
      var indentationForLine := IndentationLevelForLine(document, lineNumber);
      if gap && indentationForLine == currentIndentationLevel {
        return Some(lineNumber);
      } else if !gap && indentationForLine != currentIndentationLevel {
        return Some(lineNumber + 1);
      }
    }
    return Some(0);
  }

  /** Line 0 never decides the upward result: two documents that differ only
      in their first line give the same answer from every line. */
  lemma PreviousLineIgnoresLineZero(document: seq<string>, other: seq<string>, current: nat, level: int)
    requires |document| == |other| && current < |document|
    requires document[1..] == other[1..]
    ensures PreviousLine(document, current, level) == PreviousLine(other, current, level)
  {
    var r := PreviousLine(document, current, level);
    PreviousLineCharacterised(document, current, level, r);
    forall k | 1 <= k < |document|
      ensures IndentationLevelForLine(document, k) == IndentationLevelForLine(other, k)
    {
      assert document[k] == document[1..][k - 1] == other[1..][k - 1] == other[k];
    }
    if current == 1 {
      assert IsPreviousSibling(other, current, level, Some(0));
    } else {
      assert IsPreviousSibling(other, current, level, r);
    }
    PreviousLineCharacterised(other, current, level, r);
  }

  // ---------------------------------------------------------------------
  // Down, then up
  // ---------------------------------------------------------------------

  /** Moving down across a gap to a real sibling and then up again returns
      to the starting line. */
  lemma DownThenUpAcrossGap(document: seq<string>, line: nat, next: nat)
    requires line < |document| && next < |document|
    requires var level := IndentationLevelForLine(document, line);
      && NextLine(document, line, level) == Some(next)
      && IndentationLevelForLine(document, line + 1) != level
      && IndentationLevelForLine(document, next) == level
    ensures PreviousLine(document, next, IndentationLevelForLine(document, line)) == Some(line)
  {
    var level := IndentationLevelForLine(document, line);
    NextLineCharacterised(document, line, level, Some(next));
    assert line + 1 < next;
    assert IsPreviousSibling(document, next, level, Some(line));
    PreviousLineCharacterised(document, next, level, Some(line));
  }

  /** Moving down a run that starts at `line` (the line above is at another
      level) and then up again returns to `line`, except when the run starts
      at line 1: see `DownThenUpFromLineOne`. */
  lemma DownThenUpAlongRun(document: seq<string>, line: nat, next: nat)
    requires line < |document| && next < |document| && line != 1
    requires var level := IndentationLevelForLine(document, line);
      && (line == 0 || IndentationLevelForLine(document, line - 1) != level)
      && NextLine(document, line, level) == Some(next)
      && IndentationLevelForLine(document, line + 1) == level
    ensures PreviousLine(document, next, IndentationLevelForLine(document, line)) == Some(line)
  {
    var level := IndentationLevelForLine(document, line);
    NextLineCharacterised(document, line, level, Some(next));
    assert IsPreviousSibling(document, next, level, Some(line));
    PreviousLineCharacterised(document, next, level, Some(line));
  }

  /** A run starting at line 1 below a line 0 of another level: moving down
      it and back up lands on line 0, not on line 1, because the upward loop
      stops before line 0 and falls back to it. */
  lemma DownThenUpFromLineOne(document: seq<string>, next: nat)
    requires 2 < |document| && next < |document|
    requires var level := IndentationLevelForLine(document, 1);
      && IndentationLevelForLine(document, 0) != level
      && IndentationLevelForLine(document, 2) == level
      && NextLine(document, 1, level) == Some(next)
    ensures PreviousLine(document, next, IndentationLevelForLine(document, 1)) == Some(0)
  {
    var level := IndentationLevelForLine(document, 1);
    NextLineCharacterised(document, 1, level, Some(next));
    assert IsPreviousSibling(document, next, level, Some(0));
    PreviousLineCharacterised(document, next, level, Some(0));
  }
  /** When the gap search finds no line at the level it falls back to the
      last line, and up from there is no round trip: in `["a", "a", "  b"]`,
      down from line 1 gives line 2, and up from line 2 gives line 0. */
  lemma DownThenUpAfterFallback()
    ensures var document := ["a", "a", "  b"];
      && NextLine(document, 1, IndentationLevelForLine(document, 1)) == Some(2)
      && PreviousLine(document, 2, IndentationLevelForLine(document, 2)) == Some(0)
  {
    var document := ["a", "a", "  b"];
    assert IndentationLevelForLine(document, 1) == 0;
    assert IndentationLevelForLine(document, 2) == 2;
  }

  /** From the middle of a run, down then up lands on the run's first line:
      in `["x", "y", "  a", "  b", "  c"]`, down from line 3 gives line 4,
      and up from line 4 gives line 2. */
  lemma DownThenUpFromMidRun()
    ensures var document := ["x", "y", "  a", "  b", "  c"];
      && NextLine(document, 3, 2) == Some(4)
      && PreviousLine(document, 4, 2) == Some(2)
  {
    var document := ["x", "y", "  a", "  b", "  c"];
    assert IndentationLevelForLine(document, 1) == 0;
    assert IndentationLevelForLine(document, 2) == 2;
    assert IndentationLevelForLine(document, 3) == 2;
    assert IndentationLevelForLine(document, 4) == 2;
  }
}
